=== FILE: README.md ===
# Parking-garage queue

A Dafny model of the queue logic behind the "PUP-CEA Parking Garage" page of
the DSA-Angel teaching site (`dsa/src/pages/Queue.jsx`). The page keeps a
bounded FIFO queue of plate-number strings (`garage`, front at index 0) and two
counters: `arrivals` and `departures`. Three buttons change it:

- **Arrival** (`handleArrival`) appends the typed plate to the rear.
- **Departure** (`departCar(plateNumber)`) removes the typed plate, but only if it is at the front.
- **Depart Front** (`handleDepartureLastCar`) removes the front car, whatever plate is typed.

An effect also highlights the parked car whose plate matches the plate box.

The model has five modules:

- `JsString` (`js_string.dfy`): ECMAScript whitespace and `String.prototype.trim`, and the fact that `!s.trim()` means "every character is whitespace".
- `JsArray` (`js_array.dfy`): `indexOf`, `filter(e => e !== x)` and `find(e => x === e)` on sequences.
- `Garage` (`garage.dfy`): the store `Store(garage, arrivals, departures)`. Each handler is one atomic transition. It returns a `Step`: the next store and the event the page announces, which is `Arrived(plate)`, `Departed(plate)` or `Rejected(reason)`. The reasons are `EmptyPlate`, `DuplicatePlate`, `GarageFull`, `GarageEmpty`, `NotFound` and `NotAtFront`. The module also holds the invariant `Valid`: at most 10 cars, no plate twice, no blank plate. Its lemmas prove that every handler preserves `Valid`. They also prove that, on a valid store, departing by the plate typed is the same transition as departing the front when that plate is the front car.
- `Session` (`session.dfy`): sequences of clicks. One invariant holds for every reachable store: `arrivals == departures + |garage|`. Each counter grows by exactly the number of successful operations of its kind. Distinct, non-blank plates that are not parked and fit arrive in call order.
- `Scenarios` (`scenarios.dfy`): concrete click sequences and the outcome each must have.

Strings are `seq<char>` of Unicode scalar values. Plates are compared with plain sequence equality, which is what `===`, `includes` and `indexOf` do on strings.

## Model

| member | source | states |
|---|---|---|
| JsString.Trim | dsa/src/pages/Queue.jsx:55 | the trimmed plate is an infix of the plate, everything dropped before and after it is whitespace, and when non-empty it neither starts nor ends with whitespace |
| JsString.TrimEmptyIffBlank | dsa/src/pages/Queue.jsx:91 | `!plate.trim()` holds exactly when every character of the plate is whitespace, the empty plate included |
| JsArray.IndexOf | dsa/src/pages/Queue.jsx:101 | `indexOf` gives -1 exactly when the plate is absent, otherwise an index holding the plate with no earlier occurrence |
| JsArray.Without | dsa/src/pages/Queue.jsx:107 | `filter(car => car !== plate)` leaves no copy of the plate and keeps every other plate with its multiplicity |
| JsArray.WithoutAbsent | dsa/src/pages/Queue.jsx:107 | filtering out a plate that is not there returns the garage unchanged, order included |
| JsArray.WithoutAppend | dsa/src/pages/Queue.jsx:107 | filtering a concatenation is filtering each part and concatenating the results, so the kept plates stay in their original order |
| JsArray.WithoutFront | dsa/src/pages/Queue.jsx:107 | when the plate occurs only at the front, the filter equals `slice(1)` |
| JsArray.Find | dsa/src/pages/Queue.jsx:32 | `find(car => plate === car)` is undefined exactly when the plate is absent, and otherwise yields the plate |
| Garage.Arrive | dsa/src/pages/Queue.jsx:54-71 | a blank plate is rejected first, then a parked plate, then a garage of 10 or more; no other rejection is possible, so a fresh non-blank plate with room is never refused; each rejection leaves the store unchanged; otherwise the plate is appended at the rear, arrivals grows by one and departures is untouched |
| Garage.DepartFront | dsa/src/pages/Queue.jsx:74-84 | an empty garage is rejected and nothing changes, and it is the only rejection, so a non-empty garage always departs; the front plate is announced, the rest of the garage is the old one minus its front in the same order, departures grows by one and arrivals is untouched |
| Garage.DepartCar | dsa/src/pages/Queue.jsx:86-110 | empty garage, then blank plate, then absent plate, then plate not at the front are rejected in that order without change, and no other rejection is possible, so the non-blank front plate always departs; success requires the plate at the front, announces it, removes every copy of it, and increments only departures |
| Garage.Highlight | dsa/src/pages/Queue.jsx:31-34 | the highlighted car, when there is one, is the typed plate, is parked and is not the empty string; every parked plate other than the empty string is highlighted; an absent plate highlights nothing |
| Garage.InitValid | dsa/src/pages/Queue.jsx:8-11 | the store the page mounts with (empty garage, both counters 0) satisfies the garage invariant |
| Garage.ArrivePreservesValid | dsa/src/pages/Queue.jsx:59-67 | because the duplicate and capacity guards precede the append, an arrival keeps the garage at most 10 long, free of repeats and of blank plates |
| Garage.DepartFrontPreservesValid | dsa/src/pages/Queue.jsx:79-82 | removing the front car keeps the garage invariant |
| Garage.DepartCarPreservesValid | dsa/src/pages/Queue.jsx:101-108 | departing by plate keeps the garage invariant |
| Garage.ArriveFresh | dsa/src/pages/Queue.jsx:63-69 | a non-blank plate that is not parked is admitted whenever fewer than 10 cars are parked |
| Garage.DepartCarIsDepartFront | dsa/src/pages/Queue.jsx:101-109 | on a valid store whose front is the plate, depart-by-plate is exactly the depart-front transition: same new garage (`filter` equals `slice(1)`), same announced plate, same counters |
| Garage.DistinctnessNeeded | dsa/src/pages/Queue.jsx:81 | with a plate parked twice the filter would remove both copies while `slice(1)` removes one, so the equivalence rests on the invariant |
| Garage.DepartCarSucceedsIffFront | dsa/src/pages/Queue.jsx:87-104 | on a valid store depart-by-plate succeeds if and only if the garage is non-empty and the plate is its front |
| Garage.DepartCarBehindFrontRefused | dsa/src/pages/Queue.jsx:101-104 | on a valid store a parked plate that is not at the front is rejected with NotAtFront and the store is unchanged |
| Garage.FullRefusesArrivals | dsa/src/pages/Queue.jsx:55-66 | with 10 cars parked every arrival is rejected without change, and a fresh non-blank plate is rejected as GarageFull |
| Garage.RepeatArrivalRefused | dsa/src/pages/Queue.jsx:59-62 | arriving again with a plate that has just arrived is rejected as a duplicate |
| Garage.ArriveThenDepartCar | dsa/src/pages/Queue.jsx:67-108 | on an empty garage, arriving and then departing the same non-blank plate restores the garage and increments each counter once |
| Garage.HighlightIffParked | dsa/src/pages/Queue.jsx:32-33 | on a valid store the highlight is the typed plate if and only if it is parked, and nothing otherwise |
| Session.Apply | dsa/src/pages/Queue.jsx:144-172 | Arrival runs the arrival handler with the typed plate, Departure runs depart-by-plate with the typed plate, and Depart Front runs the front departure and ignores the box: an arrival event comes only from Arrival with that plate and appends it, every departure announces the old front, Departure departs only the typed plate, Depart Front departs exactly when the garage is non-empty, and a rejected click changes nothing |
| Session.InitInv | dsa/src/pages/Queue.jsx:8-11 | the mounted store satisfies the session invariant |
| Session.ApplyPreservesInv | dsa/src/pages/Queue.jsx:54-110 | every click keeps the garage invariant and keeps arrivals equal to departures plus the number of parked cars |
| Session.RunPreservesInv | dsa/src/pages/Queue.jsx:54-110 | every store reachable by clicks from one satisfying the invariant satisfies it |
| Session.RunCountsEvents | dsa/src/pages/Queue.jsx:67-109 | over any click sequence, arrivals grows by exactly the number of announced arrivals, and departures by the number of announced departures |
| Session.ArrivalsInOrder | dsa/src/pages/Queue.jsx:67-69 | distinct, non-blank, new plates that fit arrive one after another; the garage becomes the old one followed by those plates in call order, and arrivals grows by their number |
| Scenarios.EmptyPlateRefused | dsa/src/pages/Queue.jsx:55-58 | an empty plate is rejected as EmptyPlate by arrival and rejected by depart-by-plate, with nothing changed |
| Scenarios.DuplicateScenario | dsa/src/pages/Queue.jsx:59-62 | after AAA and BBB, a second AAA is a duplicate and the garage stays AAA, BBB |
| Scenarios.NotFoundScenario | dsa/src/pages/Queue.jsx:96-99 | after AAA, asking BBB to depart is rejected as NotFound |
| Scenarios.NotAtFrontScenario | dsa/src/pages/Queue.jsx:101-104 | after AAA and BBB, asking BBB to depart is rejected as NotAtFront and the garage is unchanged |
| Scenarios.EmptyGarageScenario | dsa/src/pages/Queue.jsx:75-78 | departing from the freshly mounted garage is rejected as GarageEmpty with the counters at 0 |

## Left out

- React state machinery: each handler reads `garage` from its closure and commits through updater functions (`prev => ...`). The model treats each handler as one atomic transition on the current store, which is how the handlers behave when clicks are handled one at a time.
- The plate text box (`plateNumber`, line 9): the plate is a parameter of each transition. Clearing the box after an arrival (line 68) is not modelled, because the box is input state, not part of the queue.
- Messages and notifications (`showMessage` / `showNotification`, lines 42-51): the `setTimeout` auto-dismiss timers and the message texts are left out. Each transition returns the announced event or the rejection reason instead.
- Background audio (lines 20-29), `document.title` (lines 16-18) and `console.log` (lines 38-39): these are I/O side effects with no effect on the queue.
- Rendering (lines 112-266): JSX, except the three `onClick` bindings of the Arrival, Departure and Depart Front buttons (lines 144-172), which are kept as `Session.Apply`. Left out are animations, the Front/Rear/Only Car labels, border colours, and the imported `CustomButton` and `AnimatedClouds` components. These are presentation only, and the components are not part of this model.
- JsString.IsWhitespace: the set of whitespace is the ECMAScript WhiteSpace and LineTerminator code points, with the Zs category as of Unicode 15. Strings are sequences of scalar values rather than UTF-16 code units, so lone surrogates are not represented.
- Store: the counters are unbounded `nat`s. In the page they are JavaScript Numbers updated by `prev + 1` (lines 69 and 82), which stop growing above 2^53; no session clicks that often, so "grows by exactly" holds for every reachable session.

=== FILE: garage.dfy ===
/** The parking-garage queue of the Queue page: a bounded FIFO of plate strings
    with an arrival counter and a departure counter. Each click handler is one
    atomic transition from the current store to the next, together with the
    event the page announces (an arrival, a departure, or the rejection reason). */
module Garage {
  import opened JsString
  import opened JsArray

  /** The page refuses an arrival once the garage holds this many cars. */
  const MaxCapacity := 10

  /** `garage[0]` is the front (next to leave), the last element the rear. */
  datatype Store = Store(garage: seq<string>, arrivals: nat, departures: nat)

  /** The store when the page mounts. */
  const Init := Store([], 0, 0)

  datatype Reason = EmptyPlate | DuplicatePlate | GarageFull | GarageEmpty | NotFound | NotAtFront

  datatype Event = Arrived(plate: string) | Departed(plate: string) | Rejected(reason: Reason)

  datatype Step = Step(next: Store, event: Event)

  predicate Distinct(g: seq<string>) {
    forall i, j :: 0 <= i < j < |g| ==> g[i] != g[j]
  }

  /** What the handlers keep true: bounded, no plate twice, no blank plate. */
  predicate Valid(s: Store) {
    && |s.garage| <= MaxCapacity
    && Distinct(s.garage)
    && forall i :: 0 <= i < |s.garage| ==> !IsBlank(s.garage[i])
  }

  /** handleArrival: the blank test comes first, then the duplicate test, then the
      capacity test; on success the plate goes to the rear and arrivals grows by one. */
  function Arrive(s: Store, plate: string): (r: Step)
    ensures r.event == Rejected(EmptyPlate) <==> IsBlank(plate)
    ensures r.event == Rejected(DuplicatePlate) <==> !IsBlank(plate) && plate in s.garage
    ensures r.event == Rejected(GarageFull) <==>
              !IsBlank(plate) && plate !in s.garage && |s.garage| >= MaxCapacity
    ensures r.event.Rejected? ==> r.event.reason in {EmptyPlate, DuplicatePlate, GarageFull}
    ensures r.event.Rejected? ==> r.next == s
    ensures !r.event.Rejected? ==>
              && r.event == Arrived(plate)
              && r.next.garage == s.garage + [plate]
              && r.next.arrivals == s.arrivals + 1
              && r.next.departures == s.departures
  {
    TrimEmptyIffBlank(plate);
    if Trim(plate) == [] then Step(s, Rejected(EmptyPlate))
    else if plate in s.garage then Step(s, Rejected(DuplicatePlate))
    else if |s.garage| >= MaxCapacity then Step(s, Rejected(GarageFull))
    else Step(s.(garage := s.garage + [plate], arrivals := s.arrivals + 1), Arrived(plate))
  }

  /** handleDepartureLastCar: an empty garage is refused; otherwise the front car
      leaves, the others shift forward, and departures grows by one. */
  function DepartFront(s: Store): (r: Step)
    ensures r.event == Rejected(GarageEmpty) <==> s.garage == []
    ensures r.event.Rejected? ==> r.event.reason == GarageEmpty
    ensures r.event.Rejected? ==> r.next == s
    ensures !r.event.Rejected? ==>
              && r.event == Departed(s.garage[0])
              && [s.garage[0]] + r.next.garage == s.garage
              && r.next.arrivals == s.arrivals
              && r.next.departures == s.departures + 1
  {
    if |s.garage| == 0 then Step(s, Rejected(GarageEmpty))
    else
      var departing := s.garage[0];
      Step(s.(garage := s.garage[1..], departures := s.departures + 1), Departed(departing))
  }

  /** departCar: the empty-garage test, then the blank test, then the presence test,
      then the front test; on success every copy of the plate is filtered out. */
  function DepartCar(s: Store, plate: string): (r: Step)
    ensures r.event == Rejected(GarageEmpty) <==> s.garage == []
    ensures r.event == Rejected(EmptyPlate) <==> s.garage != [] && IsBlank(plate)
    ensures r.event == Rejected(NotFound) <==>
              s.garage != [] && !IsBlank(plate) && plate !in s.garage
    ensures r.event == Rejected(NotAtFront) <==>
              !IsBlank(plate) && plate in s.garage && s.garage[0] != plate
    ensures r.event.Rejected? ==> r.event.reason in {GarageEmpty, EmptyPlate, NotFound, NotAtFront}
    ensures r.event.Rejected? ==> r.next == s
    ensures !r.event.Rejected? ==>
              && s.garage != [] && s.garage[0] == plate
              && r.event == Departed(plate)
              && plate !in r.next.garage
              && multiset(r.next.garage) == multiset(s.garage)[plate := 0]
              && r.next.arrivals == s.arrivals
              && r.next.departures == s.departures + 1
  {
    TrimEmptyIffBlank(plate);
    if |s.garage| == 0 then Step(s, Rejected(GarageEmpty))
    else if Trim(plate) == [] then Step(s, Rejected(EmptyPlate))
    else if plate !in s.garage then Step(s, Rejected(NotFound))
    else if IndexOf(s.garage, plate) != 0 then Step(s, Rejected(NotAtFront))
    else
      var departing := s.garage[IndexOf(s.garage, plate)];
      Step(s.(garage := Without(s.garage, plate), departures := s.departures + 1), Departed(departing))
  }

  /** The highlight effect: `garage.find(car => plate === car) || null`, so a
      found empty string reads as no match. */
  function Highlight(s: Store, plate: string): (r: Option<string>)
    ensures r.Some? ==> r.value == plate && plate in s.garage && plate != ""
    ensures plate !in s.garage ==> r == None
    ensures plate in s.garage && plate != "" ==> r == Some(plate)
  {
    match Find(s.garage, plate)
    case Some(car) => if car == "" then None else Some(car)
    case None => None
  }

  // ---------------------------------------------------------------------------
  // Invariant preservation

  lemma InitValid()
    ensures Valid(Init)
  {
  }

  /** The duplicate and capacity guards come before the append, so an arrival
      keeps the garage bounded and free of repeats. */
  lemma ArrivePreservesValid(s: Store, plate: string)
    requires Valid(s)
    ensures Valid(Arrive(s, plate).next)
  {
    var r := Arrive(s, plate);
    if !r.event.Rejected? {
      var g := r.next.garage;
      forall i, j | 0 <= i < j < |g|
        ensures g[i] != g[j]
      {
        if j == |g| - 1 {
          assert g[i] == s.garage[i];
        }
      }
    }
  }

  lemma DepartFrontPreservesValid(s: Store)
    requires Valid(s)
    ensures Valid(DepartFront(s).next)
  {
  }

  lemma DepartCarPreservesValid(s: Store, plate: string)
    requires Valid(s)
    ensures Valid(DepartCar(s, plate).next)
  {
    var r := DepartCar(s, plate);
    if r.event.Departed? {
      DepartCarIsDepartFront(s, plate);
      DepartFrontPreservesValid(s);
    }
  }

  // ---------------------------------------------------------------------------
  // The two departure paths

  /** On a valid store, `filter(car => car !== plate)` behind the front guard
      removes exactly the front car, as `slice(1)` does: departing by plate and
      departing the front are the same transition. */
  lemma DepartCarIsDepartFront(s: Store, plate: string)
    requires Valid(s)
    requires s.garage != [] && s.garage[0] == plate
    ensures DepartCar(s, plate) == DepartFront(s)
  {
    var g := s.garage;
    assert !IsBlank(g[0]);
    assert plate !in g[1..] by {
      forall k | 0 <= k < |g| - 1
        ensures g[1..][k] != plate
      {
        assert g[1..][k] == g[k + 1];
      }
    }
    WithoutFront(g, plate);
  }

  /** Distinctness is what makes the two paths agree: were a plate parked twice,
      the filter would take both copies while `slice(1)` takes one. */
  lemma DistinctnessNeeded()
    ensures var s := Store(["X", "X"], 2, 0);
            DepartCar(s, "X").next.garage == [] && DepartFront(s).next.garage == ["X"]
  {
    var s := Store(["X", "X"], 2, 0);
    assert !IsWhitespace("X"[0]);
    assert Without(["X"], "X") == [];
    assert ["X", "X"][1..] == ["X"];
  }

  /** On a valid store, departing by plate succeeds exactly for the front plate. */
  lemma DepartCarSucceedsIffFront(s: Store, plate: string)
    requires Valid(s)
    ensures DepartCar(s, plate).event.Departed? <==> s.garage != [] && s.garage[0] == plate
  {
    if s.garage != [] && s.garage[0] == plate {
      assert !IsBlank(s.garage[0]);
    }
  }

  /** A plate already in the garage but not at the front is refused and the
      store is left as it was. */
  lemma DepartCarBehindFrontRefused(s: Store, plate: string)
    requires Valid(s)
    requires plate in s.garage && s.garage[0] != plate
    ensures DepartCar(s, plate) == Step(s, Rejected(NotAtFront))
  {
    var i :| 0 <= i < |s.garage| && s.garage[i] == plate;
    assert !IsBlank(s.garage[i]);
  }

  // ---------------------------------------------------------------------------
  // Arrival outcomes

  /** A non-blank plate that is not parked is admitted while there is room. */
  lemma ArriveFresh(s: Store, plate: string)
    requires !IsBlank(plate) && plate !in s.garage && |s.garage| < MaxCapacity
    ensures Arrive(s, plate)
              == Step(Store(s.garage + [plate], s.arrivals + 1, s.departures), Arrived(plate))
  {
  }

  /** A full garage refuses every arrival, with GarageFull unless an earlier
      guard fires first. */
  lemma FullRefusesArrivals(s: Store, plate: string)
    requires |s.garage| == MaxCapacity
    ensures Arrive(s, plate).event.Rejected?
    ensures Arrive(s, plate).next == s
    ensures !IsBlank(plate) && plate !in s.garage ==>
              Arrive(s, plate).event == Rejected(GarageFull)
  {
  }

  /** Arriving with a plate that is already parked is refused as a duplicate. */
  lemma RepeatArrivalRefused(s: Store, plate: string)
    requires Arrive(s, plate).event.Arrived?
    ensures Arrive(Arrive(s, plate).next, plate) == Step(Arrive(s, plate).next, Rejected(DuplicatePlate))
  {
    var t := Arrive(s, plate).next;
    assert t.garage[|t.garage| - 1] == plate;
  }

  /** A departure by plate undoes the arrival that put that plate at the front
      of an otherwise empty garage. */
  lemma ArriveThenDepartCar(s: Store, plate: string)
    requires s.garage == []
    requires !IsBlank(plate)
    ensures DepartCar(Arrive(s, plate).next, plate).next
              == s.(arrivals := s.arrivals + 1, departures := s.departures + 1)
  {
    WithoutFront([plate], plate);
  }

  // ---------------------------------------------------------------------------
  // Highlight

  /** On a valid store the highlight shows the typed plate exactly when it is
      parked; the `|| null` collapse of an empty match never matters there. */
  lemma HighlightIffParked(s: Store, plate: string)
    requires Valid(s)
    ensures Highlight(s, plate) == Some(plate) <==> plate in s.garage
    ensures Highlight(s, plate) == None <==> plate !in s.garage
  {
    if plate in s.garage {
      var i :| 0 <= i < |s.garage| && s.garage[i] == plate;
      assert !IsBlank(s.garage[i]);
    }
  }
}

=== FILE: js_array.dfy ===
/** The JavaScript array methods the garage page calls, on sequences, with the
    strict equality (`===` / `!==`) the page's callbacks use. */
module JsArray {

  datatype Option<T> = None | Some(value: T)

  /** Array.prototype.indexOf: the first index holding `x`, or -1 when there is none. */
  function IndexOf<T(==)>(s: seq<T>, x: T): (r: int)
    ensures -1 <= r < |s|
    ensures r == -1 <==> x !in s
    ensures 0 <= r ==> s[r] == x && forall j :: 0 <= j < r ==> s[j] != x
  {
    if s == [] then -1
    else if s[0] == x then 0
    else
      var k := IndexOf(s[1..], x);
      if k < 0 then -1 else k + 1
  }

  /** Array.prototype.filter(e => e !== x): every occurrence of `x` removed, every
      other element kept with its multiplicity. */
  function Without<T(==)>(s: seq<T>, x: T): (r: seq<T>)
    ensures |r| <= |s|
    ensures x !in r
    ensures multiset(r) == multiset(s)[x := 0]
  {
    if s == [] then []
    else
      assert s == [s[0]] + s[1..];
      (if s[0] == x then [] else [s[0]]) + Without(s[1..], x)
  }

  /** Filtering out an absent element changes nothing, order included. */
  lemma {:induction false} WithoutAbsent<T>(s: seq<T>, x: T)
    requires x !in s
    ensures Without(s, x) == s
  {
    if s != [] {
      WithoutAbsent(s[1..], x);
      assert s == [s[0]] + s[1..];
    }
  }

  /** The filter works element by element: filtering a concatenation filters
      each part and keeps them in order. With the one-element cases this fixes
      the result completely, order included. */
  lemma {:induction false} WithoutAppend<T>(a: seq<T>, b: seq<T>, x: T)
    ensures Without(a + b, x) == Without(a, x) + Without(b, x)
  {
    if a != [] {
      assert (a + b)[1..] == a[1..] + b;
      WithoutAppend(a[1..], b, x);
    } else {
      assert a + b == b;
    }
  }

  /** When `x` occurs only at the front, filtering it out is the same as
      `slice(1)`. */
  lemma WithoutFront<T>(s: seq<T>, x: T)
    requires s != [] && s[0] == x && x !in s[1..]
    ensures Without(s, x) == s[1..]
  {
    WithoutAbsent(s[1..], x);
  }

  /** Array.prototype.find(e => x === e): the first element equal to `x`, if any. */
  function Find<T(==)>(s: seq<T>, x: T): (r: Option<T>)
    ensures r.None? <==> x !in s
    ensures r.Some? ==> r.value == x
  {
    if s == [] then None
    else if s[0] == x then Some(s[0])
    else Find(s[1..], x)
  }
}

=== FILE: js_string.dfy ===
/** The part of JavaScript's String.prototype.trim that the garage page relies on:
    a plate counts as empty when trimming leaves nothing. Strings are sequences of
    Unicode scalar values. */
module JsString {

  /** ECMAScript WhiteSpace (TAB, VT, FF, ZWNBSP and every Zs code point) and
      LineTerminator (LF, CR, LS, PS), sections 12.2 and 12.3 of ECMA-262. */
  predicate IsWhitespace(c: char) {
    || c == '\t' || c == '\n' || c == '\U{000B}' || c == '\U{000C}' || c == '\r'
    || c == ' ' || c == '\U{00A0}' || c == '\U{1680}'
    || ('\U{2000}' <= c <= '\U{200A}')
    || c == '\U{2028}' || c == '\U{2029}' || c == '\U{202F}' || c == '\U{205F}'
    || c == '\U{3000}' || c == '\U{FEFF}'
  }

  /** Every character of `s` is whitespace (the empty string included). */
  predicate IsBlank(s: string) {
    forall i :: 0 <= i < |s| ==> IsWhitespace(s[i])
  }

  /** The index of the first character at or after `i` that is not whitespace,
      or `|s|` when there is none. */
  function SkipLeading(s: string, i: nat): (j: nat)
    requires i <= |s|
    ensures i <= j <= |s|
    ensures forall k :: i <= k < j ==> IsWhitespace(s[k])
    ensures j < |s| ==> !IsWhitespace(s[j])
    decreases |s| - i
  {
    if i == |s| || !IsWhitespace(s[i]) then i else SkipLeading(s, i + 1)
  }

  /** The index just past the last character in `s[lo..j]` that is not
      whitespace, or `lo` when there is none. */
  function SkipTrailing(s: string, lo: nat, j: nat): (e: nat)
    requires lo <= j <= |s|
    ensures lo <= e <= j
    ensures forall k :: e <= k < j ==> IsWhitespace(s[k])
    ensures lo < e ==> !IsWhitespace(s[e - 1])
    decreases j
  {
    if j == lo || !IsWhitespace(s[j - 1]) then j else SkipTrailing(s, lo, j - 1)
  }

  /** A run of whitespace characters is a blank slice. */
  lemma BlankRange(s: string, lo: nat, hi: nat)
    requires lo <= hi <= |s|
    requires forall k :: lo <= k < hi ==> IsWhitespace(s[k])
    ensures IsBlank(s[lo..hi])
  {
    var w := s[lo..hi];
    forall k | 0 <= k < |w|
      ensures IsWhitespace(w[k])
    {
      assert w[k] == s[lo + k];
    }
  }

  /** String.prototype.trim: `s` is a blank prefix, the result, and a blank
      suffix, and the result neither starts nor ends with whitespace. */
  function Trim(s: string): (r: string)
    ensures |r| <= |s|
    ensures var i := SkipLeading(s, 0);
            && i + |r| <= |s|
            && r == s[i..i + |r|]
            && IsBlank(s[..i])
            && IsBlank(s[i + |r|..])
    ensures r != [] ==> !IsWhitespace(r[0]) && !IsWhitespace(r[|r| - 1])
  {
    var b := SkipLeading(s, 0);
    var e := SkipTrailing(s, b, |s|);
    BlankRange(s, 0, b);
    BlankRange(s, e, |s|);
    s[b..e]
  }

  /** `!s.trim()` holds exactly for the blank strings. */
  lemma TrimEmptyIffBlank(s: string)
    ensures Trim(s) == [] <==> IsBlank(s)
  {
    var i := SkipLeading(s, 0);
    if Trim(s) == [] {
      var pre := s[..i];
      forall k | 0 <= k < |s|
        ensures IsWhitespace(s[k])
      {
        assert s[k] == pre[k];
      }
    } else if i < |s| {
      assert !IsWhitespace(s[i]);
    }
  }
}

=== FILE: scenarios.dfy ===
/** Concrete click sequences on a freshly mounted page, with the outcome each
    one must have. */
module Scenarios {
  import opened JsString
  import opened Garage
  import opened Session

  /** An empty plate is always refused first, and nothing changes. */
  lemma EmptyPlateRefused(s: Store)
    ensures Arrive(s, "") == Step(s, Rejected(EmptyPlate))
    ensures DepartCar(s, "").event.Rejected? && DepartCar(s, "").next == s
  {
  }

  lemma PlatesNotBlank()
    ensures !IsBlank("AAA") && !IsBlank("BBB") && "AAA" != "BBB"
  {
    assert !IsWhitespace("AAA"[0]);
    assert !IsWhitespace("BBB"[0]);
    assert "AAA"[0] != "BBB"[0];
  }

  /** The store holding AAA after one arrival on a fresh page. */
  lemma FirstArrival()
    ensures Apply(Init, ArriveWith("AAA")) == Step(Store(["AAA"], 1, 0), Arrived("AAA"))
  {
    PlatesNotBlank();
    ArriveFresh(Init, "AAA");
  }

  /** The store holding AAA then BBB. */
  lemma SecondArrival()
    ensures Apply(Store(["AAA"], 1, 0), ArriveWith("BBB"))
              == Step(Store(["AAA", "BBB"], 2, 0), Arrived("BBB"))
  {
    var s1 := Store(["AAA"], 1, 0);
    PlatesNotBlank();
    assert "BBB" !in s1.garage;
    ArriveFresh(s1, "BBB");
    assert s1.garage + ["BBB"] == ["AAA", "BBB"];
  }

  lemma AaaAgainRefused()
    ensures Apply(Store(["AAA", "BBB"], 2, 0), ArriveWith("AAA"))
              == Step(Store(["AAA", "BBB"], 2, 0), Rejected(DuplicatePlate))
  {
    PlatesNotBlank();
  }

  lemma BbbNotFound()
    ensures Apply(Store(["AAA"], 1, 0), DepartWith("BBB"))
              == Step(Store(["AAA"], 1, 0), Rejected(NotFound))
  {
    PlatesNotBlank();
  }

  lemma BbbNotAtFront()
    ensures Apply(Store(["AAA", "BBB"], 2, 0), DepartWith("BBB"))
              == Step(Store(["AAA", "BBB"], 2, 0), Rejected(NotAtFront))
  {
    PlatesNotBlank();
  }

  /** AAA, BBB, then AAA again: the third arrival is a duplicate and the garage
      stays AAA, BBB. */
  lemma DuplicateScenario()
    ensures Run(Init, [ArriveWith("AAA"), ArriveWith("BBB"), ArriveWith("AAA")])
              == Store(["AAA", "BBB"], 2, 0)
    ensures Trace(Init, [ArriveWith("AAA"), ArriveWith("BBB"), ArriveWith("AAA")])
              == [Arrived("AAA"), Arrived("BBB"), Rejected(DuplicatePlate)]
  {
    RunThree(Init, ArriveWith("AAA"), ArriveWith("BBB"), ArriveWith("AAA"));
    FirstArrival();
    SecondArrival();
    AaaAgainRefused();
  }

  /** AAA arrives, then a departure of BBB is asked for: BBB is not parked. */
  lemma NotFoundScenario()
    ensures Trace(Init, [ArriveWith("AAA"), DepartWith("BBB")])
              == [Arrived("AAA"), Rejected(NotFound)]
  {
    RunTwo(Init, ArriveWith("AAA"), DepartWith("BBB"));
    FirstArrival();
    BbbNotFound();
  }

  /** AAA and BBB arrive, then BBB asks to leave: BBB is behind AAA, so it is
      refused and the garage is untouched. */
  lemma NotAtFrontScenario()
    ensures Trace(Init, [ArriveWith("AAA"), ArriveWith("BBB"), DepartWith("BBB")])
              == [Arrived("AAA"), Arrived("BBB"), Rejected(NotAtFront)]
    ensures Run(Init, [ArriveWith("AAA"), ArriveWith("BBB"), DepartWith("BBB")])
              == Store(["AAA", "BBB"], 2, 0)
  {
    RunThree(Init, ArriveWith("AAA"), ArriveWith("BBB"), DepartWith("BBB"));
    FirstArrival();
    SecondArrival();
    BbbNotAtFront();
  }

  /** A departure from the empty garage is refused and neither counter moves. */
  lemma EmptyGarageScenario()
    ensures DepartFront(Init) == Step(Init, Rejected(GarageEmpty))
  {
  }
}

=== FILE: session.dfy ===
/** A page session: the user's clicks, one after another, each handled by one
    atomic transition of the garage store. */
module Session {
  import opened JsString
  import opened Garage

  /** The three buttons of the page; the two plate buttons carry the text typed
      in the plate box at the time of the click. */
  datatype Action = ArriveWith(plate: string) | DepartFrontCar | DepartWith(plate: string)

  /** The button bindings: Arrival runs the arrival handler on the typed plate,
      Departure the departure-by-plate handler on the typed plate, and Depart
      Front the front departure, which takes no plate. */
  function Apply(s: Store, a: Action): (r: Step)
    ensures r.event.Rejected? ==> r.next == s
    ensures r.event.Arrived? ==>
              a == ArriveWith(r.event.plate) && r.next.garage == s.garage + [r.event.plate]
    ensures r.event.Departed? ==> !a.ArriveWith? && s.garage != [] && r.event.plate == s.garage[0]
    ensures a.DepartWith? && r.event.Departed? ==> r.event.plate == a.plate
    ensures a.DepartFrontCar? ==> (r.event.Departed? <==> s.garage != [])
  {
    match a
    case ArriveWith(p) => Arrive(s, p)
    case DepartFrontCar => DepartFront(s)
    case DepartWith(p) => DepartCar(s, p)
  }

  /** The store after the clicks `acts`, in order. */
  function Run(s: Store, acts: seq<Action>): Store
    decreases |acts|
  {
    if acts == [] then s else Run(Apply(s, acts[0]).next, acts[1..])
  }

  /** The events the page announces for the clicks `acts`, in order. */
  function Trace(s: Store, acts: seq<Action>): (r: seq<Event>)
    ensures |r| == |acts|
    decreases |acts|
  {
    if acts == [] then [] else [Apply(s, acts[0]).event] + Trace(Apply(s, acts[0]).next, acts[1..])
  }

  /** One click followed by the others. */
  lemma RunCons(s: Store, a: Action, rest: seq<Action>)
    ensures Run(s, [a] + rest) == Run(Apply(s, a).next, rest)
    ensures Trace(s, [a] + rest) == [Apply(s, a).event] + Trace(Apply(s, a).next, rest)
  {
    assert ([a] + rest)[1..] == rest;
  }

  /** Two clicks in a row. */
  lemma RunTwo(s: Store, a: Action, b: Action)
    ensures var s1 := Apply(s, a).next;
            && Run(s, [a, b]) == Apply(s1, b).next
            && Trace(s, [a, b]) == [Apply(s, a).event, Apply(s1, b).event]
  {
    var s1 := Apply(s, a).next;
    assert [a, b] == [a] + [b];
    RunCons(s, a, [b]);
    assert [b] == [b] + [];
    RunCons(s1, b, []);
  }

  /** Three clicks in a row. */
  lemma RunThree(s: Store, a: Action, b: Action, c: Action)
    ensures var s1 := Apply(s, a).next;
            var s2 := Apply(s1, b).next;
            && Run(s, [a, b, c]) == Apply(s2, c).next
            && Trace(s, [a, b, c]) == [Apply(s, a).event, Apply(s1, b).event, Apply(s2, c).event]
  {
    var s1 := Apply(s, a).next;
    assert [a, b, c] == [a] + [b, c];
    RunCons(s, a, [b, c]);
    RunTwo(s1, b, c);
  }

  function CountArrived(evs: seq<Event>): nat {
    if evs == [] then 0 else (if evs[0].Arrived? then 1 else 0) + CountArrived(evs[1..])
  }

  function CountDeparted(evs: seq<Event>): nat {
    if evs == [] then 0 else (if evs[0].Departed? then 1 else 0) + CountDeparted(evs[1..])
  }

  /** The invariant of every store a session can reach: the garage invariant, and
      the cars present are those that arrived and have not departed. */
  predicate Inv(s: Store) {
    Valid(s) && s.arrivals == s.departures + |s.garage|
  }

  lemma InitInv()
    ensures Inv(Init)
  {
  }

  lemma ApplyPreservesInv(s: Store, a: Action)
    requires Inv(s)
    ensures Inv(Apply(s, a).next)
  {
    match a
    case ArriveWith(p) =>
      ArrivePreservesValid(s, p);
    case DepartFrontCar =>
      DepartFrontPreservesValid(s);
      var r := DepartFront(s);
      if r.event.Departed? {
        assert |r.next.garage| + 1 == |s.garage|;
      }
    case DepartWith(p) =>
      DepartCarPreservesValid(s, p);
      if DepartCar(s, p).event.Departed? {
        DepartCarIsDepartFront(s, p);
        var r := DepartFront(s);
        assert |r.next.garage| + 1 == |s.garage|;
      }
  }

  /** Every store reachable from a store satisfying the invariant satisfies it. */
  lemma {:induction false} RunPreservesInv(s: Store, acts: seq<Action>)
    requires Inv(s)
    ensures Inv(Run(s, acts))
    decreases |acts|
  {
    if acts != [] {
      ApplyPreservesInv(s, acts[0]);
      RunPreservesInv(Apply(s, acts[0]).next, acts[1..]);
    }
  }

  /** Each counter grows by exactly the number of successful operations of its
      kind, so both are monotone and rejected clicks move neither. */
  lemma {:induction false} RunCountsEvents(s: Store, acts: seq<Action>)
    ensures Run(s, acts).arrivals == s.arrivals + CountArrived(Trace(s, acts))
    ensures Run(s, acts).departures == s.departures + CountDeparted(Trace(s, acts))
    decreases |acts|
  {
    if acts != [] {
      var t := Trace(s, acts);
      RunCountsEvents(Apply(s, acts[0]).next, acts[1..]);
      assert t[1..] == Trace(Apply(s, acts[0]).next, acts[1..]);
    }
  }

  /** `plates` can all be admitted to a garage holding `g`: distinct, not blank,
      not already parked, and within capacity. */
  predicate Admissible(g: seq<string>, plates: seq<string>) {
    && Distinct(plates)
    && (forall i :: 0 <= i < |plates| ==> !IsBlank(plates[i]) && plates[i] !in g)
    && |g| + |plates| <= MaxCapacity
  }

  /** Admitting the first plate leaves the rest admissible. */
  lemma AdmissibleTail(g: seq<string>, plates: seq<string>)
    requires plates != [] && Admissible(g, plates)
    ensures Admissible(g + [plates[0]], plates[1..])
  {
    var rest := plates[1..];
    forall i | 0 <= i < |rest|
      ensures !IsBlank(rest[i]) && rest[i] !in g + [plates[0]]
    {
      assert rest[i] == plates[i + 1] && plates[0] != plates[i + 1];
    }
    forall i, j | 0 <= i < j < |rest|
      ensures rest[i] != rest[j]
    {
      assert rest[i] == plates[i + 1] && rest[j] == plates[j + 1];
    }
  }

  lemma SnocThenAppend<T>(g: seq<T>, xs: seq<T>)
    requires xs != []
    ensures (g + [xs[0]]) + xs[1..] == g + xs
  {
    assert xs == [xs[0]] + xs[1..];
  }

  /** The clicks "arrive with p" for each plate of `plates`, in order. */
  function ArrivalsOf(plates: seq<string>): (r: seq<Action>)
    ensures |r| == |plates|
    ensures forall i :: 0 <= i < |plates| ==> r[i] == ArriveWith(plates[i])
  {
    seq(|plates|, i requires 0 <= i < |plates| => ArriveWith(plates[i]))
  }

  /** Distinct, non-blank, new plates that fit arrive one after another: the
      garage grows by exactly those plates in call order, and arrivals by their
      number. */
  lemma {:induction false} ArrivalsInOrder(s: Store, plates: seq<string>)
    requires Admissible(s.garage, plates)
    ensures Run(s, ArrivalsOf(plates))
              == Store(s.garage + plates, s.arrivals + |plates|, s.departures)
    decreases |plates|
  {
    if plates != [] {
      var acts := ArrivalsOf(plates);
      var p, rest := plates[0], plates[1..];
      ArriveFresh(s, p);
      var t := Store(s.garage + [p], s.arrivals + 1, s.departures);
      assert Apply(s, acts[0]).next == t;
      assert acts[1..] == ArrivalsOf(rest);
      AdmissibleTail(s.garage, plates);
      ArrivalsInOrder(t, rest);
      SnocThenAppend(s.garage, plates);
      calc {
        Run(s, acts);
        Run(t, ArrivalsOf(rest));
        Store(s.garage + plates, s.arrivals + |plates|, s.departures);
      }
    }
  }
}
